=== FILE: README.md ===
# Pong simulation step, in Dafny

This project models the simulation core of a small browser pong game (`pong.js`).
There are three mutable records: the player's paddle, the AI's paddle and the ball.
The project models the per-frame `update` step, the `resetBall` serve and the clamping
done by the pointer-move handler. It then proves that the game keeps every entity
inside the field and that each collision rule does what the code says.

Two modules:

- `PongRules` (`rules.dfy`) states the rules on values. It holds the game's constants,
  the records as datatypes (`PaddleState`, `BallState`, `World`) and one function per
  phase of `update`, in source order: `MoveBall`, `BounceWalls`, `PlayerCollision`,
  `AiCollision`, `ScoreCheck`/`Served`, `ChaseBall`, `ClampToField`. `Tick` is the whole
  step, `FollowPointer` is the pointer handler, and `Run` applies a finite sequence of
  host events (animation frames and pointer moves). The contracts of these functions and
  the lemmas about `Tick` and `Run` are the properties proved.
- `PongGame` (`game.dfy`) is the imperative model. `Paddle` and `Ball` are classes with
  the records' fields. `Game` owns the canvas size and the three objects. Its methods
  assign the fields in the order `pong.js` does (`ball.x := ball.x + ball.dx`,
  `ball.dy := ball.dy * -1.0`, the two clamps), and each method is proved to produce
  exactly the state that the matching `PongRules` function describes.

Numbers are exact reals. The factors 1.05 and 0.2 are Dafny real literals, which are
the exact rationals 21/20 and 1/5. The canvas size comes from the hosting page, so it
is a parameter (`Field`). `Field.Valid()` asks for a height of at least 80 (the paddle
height) and a width of at least 14 (the ball size); the invariants of `Tick`, `Run` and
`Game` need no more. `Field.KeepsPaddlesApart()` asks for a width of at least
78 = 2·(20 + 12) + 14: from that width on, a paddle hit is the last word of the tick.
Only the two lemmas about a tick that ends with a paddle hit ask for it. Narrower
canvases allow three other behaviours, each shown by a concrete lemma:

- between 66 and 78 wide, a ball pushed out of the player's paddle can be inside the AI
  paddle's hit test and is deflected a second time (`NarrowCanvasDoubleDeflection`);
- between 54 and 78 wide, a ball can be inside both hit tests at once, and the player's
  test runs first (`NarrowCanvasPlayerFirst`);
- below 46 wide, a ball pushed out of the player's paddle ends with its right edge past
  the canvas and is served again (`NarrowCanvasDeflectedScores`).

`Math.random()` is replaced by two booleans, `serveRight` and `serveDown`, supplied by
the caller. A true value gives the positive sign of `5 * (Math.random() > 0.5 ? 1 : -1)`,
and the same holds for the vertical speed.

`update` is one function in the source. In the model, `Game.Update` calls one method
per phase (`MoveAndBounce`, `CollidePlayer`, `CollideAi`, the score check with
`ResetBall`, `MoveAi`). Each phase method holds the same statements in the same order.
The split keeps each proof small.

Two details of the code: the score check fires when `ball.x < 0` or when
`ball.x + ball.size > canvas.width` (pong.js:109), so a ball scores on the right as soon
as its right edge leaves the canvas. `render` draws the ball as a square (pong.js:133);
`drawCircle` is never called.

The functions `MoveBall` (pong.js:69-70), `ImpactOffset` and `Deflect` (pong.js:89-92
and 102-105), `AiTarget` (pong.js:114) and `Deflected` (pong.js:69-106) have no
contract of their own: they are the building blocks of the members listed below, whose
contracts state what they compute.

## Model

| member | source | states |
|---|---|---|
| `PongRules.Initial` | pong.js:13-35 | The starting world has the fixed sizes and x positions. Both paddles and the ball are centred vertically and the ball is centred horizontally, all inside the field. The ball has serve speeds of magnitude 5 and 3; `dx` is positive exactly when `serveRight` holds and `dy` exactly when `serveDown` holds. |
| `PongRules.Served` | pong.js:60-65 | A serve keeps the ball's size and puts its centre at the field's centre, inside the field. `dx` is 5 or -5, positive exactly when `serveRight` holds. `dy` is 3 or -3, positive exactly when `serveDown` holds. |
| `PongRules.BounceWalls` | pong.js:72-80 | After the wall step the ball's y lies in [0, H - size], and x, size and dx are unchanged. Above the top: y = 0 and dy is negated. Below the bottom: y = H - size and dy is negated. A ball between the walls is left as it is. |
| `PongRules.PlayerCollision` | pong.js:83-93 | On the strict box hit, x becomes the paddle's right edge, dx becomes -1.05·dx (sign flipped, magnitude larger), and dy becomes 0.2 × (ball centre - paddle centre). Otherwise the ball is untouched. y and size never change, and the resulting ball no longer overlaps the paddle. |
| `PongRules.AiCollision` | pong.js:96-106 | The mirror rule for the AI paddle: on a hit, the ball's right edge lands on the paddle's left edge, with the same dx and dy rules. Otherwise it is untouched, and afterwards the ball no longer overlaps the paddle. |
| `PongRules.ScoreCheck` | pong.js:108-111 | A ball that left the field on either side is served again. Otherwise it is unchanged. Either way its x lies in [0, W - size] afterwards. |
| `PongRules.ChaseBall` | pong.js:113-121 | The centre test is equivalent to `ai.y < target`. In that case dy is in (0, 16] and the paddle moves down but not past the target. Otherwise dy is in [-16, 0] and it moves up but not past the target. In both cases dy = max(-16, min(16, target - ai.y)), the gap to the target capped at 16, and the paddle moves by dy·0.2, so the step is at most 3.2. x, width and height are kept. |
| `PongRules.ClampToField` | pong.js:123-125 | Only y changes. If the paddle fits the canvas, the result is inside the field and equals max(0, min(y, H - height)). A paddle already inside is left as it is. |
| `PongRules.FollowPointer` | pong.js:145-147 | Only the paddle's y changes, to max(0, min(mouseY - height/2, H - height)), which is inside the field. When the pointer is at least half a paddle from both edges, the paddle's centre is exactly at the pointer. |
| `PongRules.Tick` | pong.js:67-126 | One step leaves the player's paddle unchanged. It changes only the AI paddle's y and dy, and keeps every size and x position. The ball and the AI paddle end inside the field, whatever the state before. |
| `PongRules.Apply` | pong.js:136-148 | A frame or a pointer event keeps the entities' shapes and keeps a world that is inside the field inside it. |
| `PongRules.Run` | pong.js:136-140 | After any finite sequence of frames and pointer moves, the shapes are unchanged, and a world that started inside the field is still inside it. |
| `PongRules.RunAppend` | pong.js:136-140 | Running two event sequences one after the other equals running their concatenation. |
| `PongRules.TickNoContact` | pong.js:69-80 | If the moved ball touches no wall, no paddle and no side, the tick advances it by exactly (dx, dy). |
| `PongRules.TickPlayerHit` | pong.js:83-111 | On a canvas at least 78 wide, a player hit is the last word of the tick: no AI hit and no score follow it. The ball ends flush with the paddle's right edge with dx = -1.05·dx and dy = 0.2 × the impact offset. |
| `PongRules.TickAiHit` | pong.js:96-111 | On a canvas at least 78 wide, an AI hit is the last word of the tick. The ball ends at `ai.x - size` with dx = -1.05·dx and dy = 0.2 × the impact offset. |
| `PongRules.TickScores` | pong.js:108-111 | A ball that leaves the field during the tick ends it centred, with speeds of magnitude 5 and 3. |
| `PongRules.TickAiChase` | pong.js:113-125 | An AI paddle that starts inside the field moves toward the target computed from the tick's final ball. It moves by at most 3.2 and never past the target, even after clamping. Its dy is max(-16, min(16, target - ai.y)), which lies in (0, 16] or [-16, 0]. |
| `PongRules.ServeAdvances` | pong.js:29-80 | On a canvas at least 88 wide, a ball served right and down from the centre advances by exactly (5, 3) in the first tick. |
| `PongRules.NarrowCanvasDoubleDeflection` | pong.js:83-111 | On a 70-wide canvas, a ball at (30, 20) moving left by 2 is deflected by the player's paddle, then lands inside the AI paddle's hit test and ends the tick at `ai.x - 14` with dx = -2.205. |
| `PongRules.NarrowCanvasPlayerFirst` | pong.js:83-106 | On a 60-wide canvas, a resting ball at (22, 20) is inside both hit tests at once. The player's test runs first, so the ball ends the tick at x = 32, flush with the player's paddle, not at `ai.x - 14`. |
| `PongRules.NarrowCanvasDeflectedScores` | pong.js:83-111 | On a 40-wide canvas, a resting ball at (25, 20) is deflected by the player's paddle, misses the AI paddle, and then counts as scored, because its right edge (46) is past the canvas. |
| `PongGame.Game.constructor` | pong.js:13-35 | Creates fresh records holding `Initial`'s state, and the game invariant holds. |
| `PongGame.Game.ResetBall` | pong.js:60-65 | Assigns the ball's fields so that the ball becomes `Served` of the old ball. |
| `PongGame.Game.MoveAndBounce` | pong.js:69-80 | The in-place move and wall reflection produce `BounceWalls(MoveBall(old ball))`. |
| `PongGame.Game.CollidePlayer` | pong.js:83-93 | The in-place player-paddle test and response produce `PlayerCollision` of the old ball. |
| `PongGame.Game.CollideAi` | pong.js:96-106 | The in-place AI-paddle test and response produce `AiCollision` of the old ball. |
| `PongGame.Game.MoveAi` | pong.js:113-125 | The in-place AI step and clamp produce `ClampToField(ChaseBall(old ai, ball))`. |
| `PongGame.Game.Update` | pong.js:67-126 | Changes only the ball and the AI paddle, leaves the player's paddle unchanged, and produces the state `Tick` gives. It preserves the game invariant, so every entity stays inside the field. |
| `PongGame.Game.MouseMove` | pong.js:142-148 | Changes only the player's paddle, to `FollowPointer` of the old paddle, and preserves the invariant. |
| `PongGame.Game.Play` | pong.js:136-140 | Handles a finite event sequence in order, preserves the invariant, and ends in the state `Run` gives. |

## Left out

- Drawing (`drawRect`, `drawCircle`, `drawNet`, `render`, colours and dash styles): these are canvas side effects that change no state.
- `requestAnimationFrame` scheduling: the endless loop is modelled only as finite event sequences (`Run`, `Game.Play`), because the host decides when frames and pointer events occur.
- Access to the page (`getElementById`, `getContext`, `getBoundingClientRect`): the canvas size is the `Field` parameter, and the pointer's offset from the canvas top is the `mouseY` parameter.
- `Math.random()`: it is replaced by the caller-supplied booleans `serveRight` and `serveDown`.
- IEEE-754 rounding: positions and velocities are exact reals, so the model does not capture floating-point rounding of 1.05 and 0.2.
- The player paddle's `dy` field is never read or written by the game. The model carries it unchanged.
- TickPlayerHit, TickAiHit: stated only for canvases at least 78 wide. Narrower canvases allow three other outcomes: a second deflection off the AI paddle when 66 < W < 78, the player's test winning over the AI's when 54 < W < 78, and a score right after a player hit when W < 46 (see the three `NarrowCanvas` lemmas). `Tick` itself covers every canvas.

=== FILE: game.dfy ===
/** The game's mutable state: the two paddle records and the ball record, updated
    field by field as the game does, and each operation proved to follow PongRules. */
module PongGame {
  import opened PongRules

  /** A paddle record (the player's or the AI's). */
  class Paddle {
    var x: real
    var y: real
    var width: real
    var height: real
    var dy: real

    constructor (s: PaddleState)
      ensures State() == s
    {
      x, y, width, height, dy := s.x, s.y, s.width, s.height, s.dy;
    }

    function State(): PaddleState
      reads this
    {
      PaddleState(x, y, width, height, dy)
    }
  }

  /** The ball record. */
  class Ball {
    var x: real
    var y: real
    var size: real
    var dx: real
    var dy: real

    constructor (s: BallState)
      ensures State() == s
    {
      x, y, size, dx, dy := s.x, s.y, s.size, s.dx, s.dy;
    }

    function State(): BallState
      reads this
    {
      BallState(x, y, size, dx, dy)
    }
  }

  /** The canvas and the three entities the game loop owns. */
  class Game {
    const field: Field
    const player: Paddle
    const ai: Paddle
    const ball: Ball

    function Snapshot(): World
      reads player, ai, ball
    {
      World(player.State(), ai.State(), ball.State())
    }

    /** Two distinct paddle records, a canvas of usable size, entities of their
        fixed sizes and x positions, and everything inside the field. */
    ghost predicate Valid()
      reads player, ai, ball
    {
      player != ai && field.Valid() && Shaped(field, Snapshot()) && Inside(field, Snapshot())
    }

    /** The start of the game, with the two coin flips of the first serve. */
    constructor (f: Field, serveRight: bool, serveDown: bool)
      requires f.Valid()
      ensures Valid() && field == f
      ensures Snapshot() == Initial(f, serveRight, serveDown)
      ensures fresh(player) && fresh(ai) && fresh(ball)
    {
      var w := Initial(f, serveRight, serveDown);
      field := f;
      player := new Paddle(w.player);
      ai := new Paddle(w.ai);
      ball := new Ball(w.ball);
    }

    /** Recentres the ball with the fixed serve speeds, signed by the two coin flips. */
    method ResetBall(serveRight: bool, serveDown: bool)
      modifies ball
      ensures ball.State() == Served(field, old(ball.State()), serveRight, serveDown)
    {
      ball.x := field.width / 2.0 - BallSize / 2.0;
      ball.y := field.height / 2.0 - BallSize / 2.0;
      ball.dx := ServeSpeedX * Sign(serveRight);
      ball.dy := ServeSpeedY * Sign(serveDown);
    }

    /** Moves the ball by its velocity and reflects it off the top and bottom walls. */
    method MoveAndBounce()
      requires ball.size <= field.height
      modifies ball
      ensures ball.State() == BounceWalls(field, MoveBall(old(ball.State())))
    {
      ball.x := ball.x + ball.dx;
      ball.y := ball.y + ball.dy;
      if ball.y < 0.0 {
        ball.y := 0.0;
        ball.dy := ball.dy * -1.0;
      }
      if ball.y + ball.size > field.height {
        ball.y := field.height - ball.size;
        ball.dy := ball.dy * -1.0;
      }
    }

    /** Resolves a collision of the ball with the player's paddle. */
    method CollidePlayer()
      modifies ball
      ensures ball.State() == PlayerCollision(player.State(), old(ball.State()))
    {
      if ball.x < player.x + player.width && ball.x > player.x
         && ball.y + ball.size > player.y && ball.y < player.y + player.height
      {
        ball.x := player.x + player.width;
        ball.dx := ball.dx * -SpeedUp;
        var collidePoint := ball.y + ball.size / 2.0 - (player.y + player.height / 2.0);
        ball.dy := collidePoint * DeflectGain;
      }
    }

    /** Resolves a collision of the ball with the AI's paddle. */
    method CollideAi()
      modifies ball
      ensures ball.State() == AiCollision(ai.State(), old(ball.State()))
    {
      if ball.x + ball.size > ai.x && ball.x + ball.size < ai.x + ai.width
         && ball.y + ball.size > ai.y && ball.y < ai.y + ai.height
      {
        ball.x := ai.x - ball.size;
        ball.dx := ball.dx * -SpeedUp;
        var collidePoint := ball.y + ball.size / 2.0 - (ai.y + ai.height / 2.0);
        ball.dy := collidePoint * DeflectGain;
      }
    }

    /** Steers the AI paddle toward the ball with a capped step, then clamps it to the field. */
    method MoveAi()
      modifies ai
      ensures ai.State() == ClampToField(field, ChaseBall(old(ai.State()), ball.State()))
    {
      var target := ball.y - ai.height / 2.0 + ball.size / 2.0;
      if ai.y + ai.height / 2.0 < ball.y + ball.size / 2.0 {
        ai.dy := Min(AiMaxSpeed, target - ai.y);
      } else {
        ai.dy := Max(-AiMaxSpeed, target - ai.y);
      }
      ai.y := ai.y + ai.dy * AiDamping;
      if ai.y < 0.0 {
        ai.y := 0.0;
      }
      if ai.y + ai.height > field.height {
        ai.y := field.height - ai.height;
      }
    }

    /** One simulation step. The coin flips are used only if the ball is served again. */
    method Update(serveRight: bool, serveDown: bool)
      requires Valid()
      modifies ball, ai
      ensures Valid()
      ensures Snapshot() == Tick(field, old(Snapshot()), serveRight, serveDown)
      ensures unchanged(player)
    {
      MoveAndBounce();
      CollidePlayer();
      CollideAi();
      if ball.x < 0.0 || ball.x + ball.size > field.width {
        ResetBall(serveRight, serveDown);
      }
      MoveAi();
    }

    /** The pointer-move handler, given the pointer's offset from the canvas top. */
    method MouseMove(mouseY: real)
      requires Valid()
      modifies player
      ensures Valid()
      ensures Snapshot() == old(Snapshot()).(player := FollowPointer(field, old(player.State()), mouseY))
      ensures unchanged(ai, ball)
    {
      player.y := mouseY - player.height / 2.0;
      if player.y < 0.0 {
        player.y := 0.0;
      }
      if player.y + player.height > field.height {
        player.y := field.height - player.height;
      }
    }

    /** The game loop over a finite run of host events: each frame runs the update
        step, each pointer move runs the handler, in the order they arrive. */
    method Play(events: seq<Event>)
      requires Valid()
      modifies player, ai, ball
      ensures Valid()
      ensures Snapshot() == Run(field, old(Snapshot()), events)
    {
      for i := 0 to |events|
        invariant Valid()
        invariant Snapshot() == Run(field, old(Snapshot()), events[..i])
      {
        ghost var before := Snapshot();
        match events[i] {
          case Frame(serveRight, serveDown) => Update(serveRight, serveDown);
          case Pointer(mouseY) => MouseMove(mouseY);
        }
        assert events[..i + 1] == events[..i] + [events[i]];
        RunAppend(field, old(Snapshot()), events[..i], [events[i]]);
        assert Run(field, before, [events[i]]) == Apply(field, before, events[i]);
      }
      assert events[..|events|] == events;
    }
  }
}

=== FILE: rules.dfy ===
/** The rules of one simulation tick of the pong game, stated on values.

    Positions and velocities are exact reals: the factors 1.05 and 0.2 are
    Dafny real literals, so they stand for the rationals 21/20 and 1/5.
    The y axis grows downwards, as on a canvas. */
module PongRules {

  // Settings of the game.
  const PaddleWidth: real := 12.0
  const PaddleHeight: real := 80.0
  const BallSize: real := 14.0
  const PlayerX: real := 20.0

  // Speeds of a fresh serve, in pixels per tick.
  const ServeSpeedX: real := 5.0
  const ServeSpeedY: real := 3.0

  // Factor applied to the horizontal speed on every paddle hit (negated).
  const SpeedUp: real := 1.05
  // Factor from impact offset to the new vertical speed.
  const DeflectGain: real := 0.2

  // The AI paddle's speed cap and damping factor.
  const AiMaxSpeed: real := 16.0
  const AiDamping: real := 0.2

  /** The drawing surface: its size is fixed by the page hosting the game. */
  datatype Field = Field(width: real, height: real) {
    /** A canvas at least as tall as a paddle and at least as wide as the ball. */
    predicate Valid() {
      height >= PaddleHeight && width >= BallSize
    }

    /** A canvas wide enough that a paddle hit is the last word of a tick: the
        ball is never inside both hit tests at once, a ball pushed out of the
        player's paddle is never inside the AI's, and a deflected ball never scores. */
    predicate KeepsPaddlesApart() {
      width >= 2.0 * (PlayerX + PaddleWidth) + BallSize
    }

    /** The AI paddle's x: as far from the right edge as the player is from the left. */
    function AiX(): real {
      width - PlayerX - PaddleWidth
    }
  }

  datatype PaddleState = PaddleState(x: real, y: real, width: real, height: real, dy: real)

  datatype BallState = BallState(x: real, y: real, size: real, dx: real, dy: real)

  /** Everything the simulation updates: the two paddles and the ball. */
  datatype World = World(player: PaddleState, ai: PaddleState, ball: BallState)

  /** What the host delivers between two states: an animation frame (with the
      two coin flips a serve would use) or a pointer move at a vertical offset. */
  datatype Event = Frame(serveRight: bool, serveDown: bool) | Pointer(mouseY: real)

  function Min(a: real, b: real): real { if a < b then a else b }

  function Max(a: real, b: real): real { if a > b then a else b }

  function Abs(a: real): real { if a < 0.0 then -a else a }

  function Sign(positive: bool): real { if positive then 1.0 else -1.0 }

  /** The entities keep the sizes and x positions they were created with. */
  predicate Shaped(f: Field, w: World) {
    && w.player.x == PlayerX && w.player.width == PaddleWidth && w.player.height == PaddleHeight
    && w.ai.x == f.AiX() && w.ai.width == PaddleWidth && w.ai.height == PaddleHeight
    && w.ball.size == BallSize
  }

  predicate PaddleInside(f: Field, p: PaddleState) {
    0.0 <= p.y <= f.height - p.height
  }

  predicate BallInside(f: Field, b: BallState) {
    0.0 <= b.x <= f.width - b.size && 0.0 <= b.y <= f.height - b.size
  }

  predicate Inside(f: Field, w: World) {
    PaddleInside(f, w.player) && PaddleInside(f, w.ai) && BallInside(f, w.ball)
  }

  /** A serve: the ball is centred and gets the fixed speeds with the given signs. */
  function Served(f: Field, b: BallState, serveRight: bool, serveDown: bool): (r: BallState)
    ensures r.size == b.size
    ensures b.size == BallSize ==> r.x + r.size / 2.0 == f.width / 2.0 && r.y + r.size / 2.0 == f.height / 2.0
    ensures b.size == BallSize && BallSize <= f.width && BallSize <= f.height ==> BallInside(f, r)
    ensures r.dx in {ServeSpeedX, -ServeSpeedX} && (r.dx > 0.0 <==> serveRight)
    ensures r.dy in {ServeSpeedY, -ServeSpeedY} && (r.dy > 0.0 <==> serveDown)
  {
    b.(x := f.width / 2.0 - BallSize / 2.0,
       y := f.height / 2.0 - BallSize / 2.0,
       dx := ServeSpeedX * Sign(serveRight),
       dy := ServeSpeedY * Sign(serveDown))
  }

  /** The state the game starts in: both paddles vertically centred, the ball served. */
  function Initial(f: Field, serveRight: bool, serveDown: bool): (w: World)
    requires f.Valid()
    ensures Shaped(f, w) && Inside(f, w)
    ensures w.player.y + w.player.height / 2.0 == f.height / 2.0
    ensures w.ai.y + w.ai.height / 2.0 == f.height / 2.0
    ensures w.ball.x + w.ball.size / 2.0 == f.width / 2.0 && w.ball.y + w.ball.size / 2.0 == f.height / 2.0
    ensures Abs(w.ball.dx) == ServeSpeedX && Abs(w.ball.dy) == ServeSpeedY
    ensures (w.ball.dx > 0.0 <==> serveRight) && (w.ball.dy > 0.0 <==> serveDown)
  {
    World(PaddleState(PlayerX, f.height / 2.0 - PaddleHeight / 2.0, PaddleWidth, PaddleHeight, 0.0),
          PaddleState(f.AiX(), f.height / 2.0 - PaddleHeight / 2.0, PaddleWidth, PaddleHeight, 0.0),
          BallState(f.width / 2.0 - BallSize / 2.0, f.height / 2.0 - BallSize / 2.0, BallSize,
                    ServeSpeedX * Sign(serveRight), ServeSpeedY * Sign(serveDown)))
  }

  function MoveBall(b: BallState): BallState {
    b.(x := b.x + b.dx, y := b.y + b.dy)
  }

  /** Reflection off the top and bottom walls. */
  function BounceWalls(f: Field, b: BallState): (r: BallState)
    requires b.size <= f.height
    ensures 0.0 <= r.y <= f.height - r.size
    ensures r.x == b.x && r.size == b.size && r.dx == b.dx
    ensures b.y < 0.0 ==> r.y == 0.0 && r.dy == -b.dy
    ensures b.y + b.size > f.height ==> r.y == f.height - b.size && r.dy == -b.dy
    ensures 0.0 <= b.y && b.y + b.size <= f.height ==> r == b
  {
    var top := if b.y < 0.0 then b.(y := 0.0, dy := b.dy * -1.0) else b;
    if top.y + top.size > f.height then top.(y := f.height - top.size, dy := top.dy * -1.0) else top
  }

  /** Signed distance from the paddle's centre down to the ball's centre. */
  function ImpactOffset(b: BallState, p: PaddleState): real {
    b.y + b.size / 2.0 - (p.y + p.height / 2.0)
  }

  /** The ball leaves the paddle at the given x, faster and reversed, with a
      vertical speed set by where it struck the paddle. */
  function Deflect(b: BallState, p: PaddleState, x: real): BallState {
    b.(x := x, dx := b.dx * -SpeedUp, dy := ImpactOffset(b, p) * DeflectGain)
  }

  /** Strict box test of the player paddle: the ball's left edge is inside the paddle's span. */
  predicate HitsPlayer(p: PaddleState, b: BallState) {
    b.x < p.x + p.width && b.x > p.x && b.y + b.size > p.y && b.y < p.y + p.height
  }

  /** Strict box test of the AI paddle: the ball's right edge is inside the paddle's span. */
  predicate HitsAi(a: PaddleState, b: BallState) {
    b.x + b.size > a.x && b.x + b.size < a.x + a.width && b.y + b.size > a.y && b.y < a.y + a.height
  }

  function PlayerCollision(p: PaddleState, b: BallState): (r: BallState)
    ensures r.y == b.y && r.size == b.size
    ensures !HitsPlayer(p, b) ==> r == b
    ensures HitsPlayer(p, b) ==> r.x == p.x + p.width && r.dx == -SpeedUp * b.dx
                                  && r.dy == DeflectGain * ImpactOffset(b, p)
    ensures HitsPlayer(p, b) && b.dx != 0.0 ==> (r.dx > 0.0 <==> b.dx < 0.0) && Abs(r.dx) > Abs(b.dx)
    ensures !HitsPlayer(p, r)
  {
    if HitsPlayer(p, b) then Deflect(b, p, p.x + p.width) else b
  }

  function AiCollision(a: PaddleState, b: BallState): (r: BallState)
    ensures r.y == b.y && r.size == b.size
    ensures !HitsAi(a, b) ==> r == b
    ensures HitsAi(a, b) ==> r.x + r.size == a.x && r.dx == -SpeedUp * b.dx
                              && r.dy == DeflectGain * ImpactOffset(b, a)
    ensures HitsAi(a, b) && b.dx != 0.0 ==> (r.dx > 0.0 <==> b.dx < 0.0) && Abs(r.dx) > Abs(b.dx)
    ensures !HitsAi(a, r)
  {
    if HitsAi(a, b) then Deflect(b, a, a.x - b.size) else b
  }

  /** The ball has left the field on the left or on the right. */
  predicate Scored(f: Field, b: BallState) {
    b.x < 0.0 || b.x + b.size > f.width
  }

  /** The score check: a ball that left the field is served again. */
  function ScoreCheck(f: Field, b: BallState, serveRight: bool, serveDown: bool): (r: BallState)
    ensures r.size == b.size
    ensures b.size == BallSize && BallSize <= f.width ==> 0.0 <= r.x <= f.width - r.size
    ensures !Scored(f, b) ==> r == b
    ensures Scored(f, b) ==> r == Served(f, b, serveRight, serveDown)
  {
    if Scored(f, b) then Served(f, b, serveRight, serveDown) else b
  }

  /** Where the AI paddle would be with its centre level with the ball's centre. */
  function AiTarget(a: PaddleState, b: BallState): real {
    b.y - a.height / 2.0 + b.size / 2.0
  }

  /** The AI paddle's step toward the ball, before it is clamped to the field:
      toward the target, a fifth of the capped gap, never past the target. */
  function ChaseBall(a: PaddleState, b: BallState): (r: PaddleState)
    ensures r.x == a.x && r.width == a.width && r.height == a.height
    ensures r.dy == Max(-AiMaxSpeed, Min(AiMaxSpeed, AiTarget(a, b) - a.y))
    ensures r.y == a.y + r.dy * AiDamping
    ensures a.y < AiTarget(a, b) ==> 0.0 < r.dy <= AiMaxSpeed && a.y < r.y <= AiTarget(a, b)
    ensures a.y >= AiTarget(a, b) ==> -AiMaxSpeed <= r.dy <= 0.0 && AiTarget(a, b) <= r.y <= a.y
    ensures Abs(r.y - a.y) <= AiMaxSpeed * AiDamping
  {
    var target := AiTarget(a, b);
    var dy := if a.y + a.height / 2.0 < b.y + b.size / 2.0
              then Min(AiMaxSpeed, target - a.y)
              else Max(-AiMaxSpeed, target - a.y);
    a.(dy := dy, y := a.y + dy * AiDamping)
  }

  /** Keeps a paddle inside the field vertically: first against the top, then the bottom. */
  function ClampToField(f: Field, p: PaddleState): (r: PaddleState)
    ensures r == p.(y := r.y)
    ensures p.height <= f.height ==> PaddleInside(f, r)
    ensures p.height <= f.height ==> r.y == Max(0.0, Min(p.y, f.height - p.height))
    ensures PaddleInside(f, p) ==> r == p
  {
    var top := if p.y < 0.0 then p.(y := 0.0) else p;
    if top.y + top.height > f.height then top.(y := f.height - top.height) else top
  }

  /** The pointer handler: the paddle's centre goes to the pointer, within the field. */
  function FollowPointer(f: Field, p: PaddleState, mouseY: real): (r: PaddleState)
    ensures r == p.(y := r.y)
    ensures p.height <= f.height ==> PaddleInside(f, r)
    ensures p.height <= f.height ==> r.y == Max(0.0, Min(mouseY - p.height / 2.0, f.height - p.height))
    ensures p.height / 2.0 <= mouseY <= f.height - p.height / 2.0 ==> r.y + r.height / 2.0 == mouseY
  {
    ClampToField(f, p.(y := mouseY - p.height / 2.0))
  }

  /** The ball after moving, bouncing off the walls and off either paddle. */
  function Deflected(f: Field, w: World): BallState
    requires w.ball.size <= f.height
  {
    AiCollision(w.ai, PlayerCollision(w.player, BounceWalls(f, MoveBall(w.ball))))
  }

  /** One call of the update step: ball physics, score check, then the AI paddle. */
  function Tick(f: Field, w: World, serveRight: bool, serveDown: bool): (r: World)
    requires f.Valid() && Shaped(f, w)
    ensures Shaped(f, r)
    ensures r.player == w.player
    ensures r.ai == w.ai.(y := r.ai.y, dy := r.ai.dy)
    ensures BallInside(f, r.ball) && PaddleInside(f, r.ai)
  {
    var b := ScoreCheck(f, Deflected(f, w), serveRight, serveDown);
    World(w.player, ClampToField(f, ChaseBall(w.ai, b)), b)
  }

  /** The effect of one event on the world. */
  function Apply(f: Field, w: World, e: Event): (r: World)
    requires f.Valid() && Shaped(f, w)
    ensures Shaped(f, r)
    ensures Inside(f, w) ==> Inside(f, r)
  {
    match e
    case Frame(serveRight, serveDown) => Tick(f, w, serveRight, serveDown)
    case Pointer(mouseY) => w.(player := FollowPointer(f, w.player, mouseY))
  }

  /** The world after a sequence of events, applied in order. */
  function Run(f: Field, w: World, events: seq<Event>): (r: World)
    requires f.Valid() && Shaped(f, w)
    ensures Shaped(f, r)
    ensures Inside(f, w) ==> Inside(f, r)
    decreases |events|
  {
    if events == [] then w else Run(f, Apply(f, w, events[0]), events[1..])
  }

  /** Running two sequences of events one after the other is running their concatenation. */
  lemma {:induction false} RunAppend(f: Field, w: World, first: seq<Event>, second: seq<Event>)
    requires f.Valid() && Shaped(f, w)
    ensures Run(f, w, first + second) == Run(f, Run(f, w, first), second)
    decreases |first|
  {
    if first == [] {
      assert first + second == second;
    } else {
      assert (first + second)[0] == first[0];
      assert (first + second)[1..] == first[1..] + second;
      RunAppend(f, Apply(f, w, first[0]), first[1..], second);
    }
  }

  /** A tick that touches no wall, no paddle and no side moves the ball by exactly its velocity. */
  lemma TickNoContact(f: Field, w: World, serveRight: bool, serveDown: bool)
    requires f.Valid() && Shaped(f, w)
    requires 0.0 <= w.ball.y + w.ball.dy && w.ball.y + w.ball.dy + w.ball.size <= f.height
    requires !HitsPlayer(w.player, MoveBall(w.ball)) && !HitsAi(w.ai, MoveBall(w.ball))
    requires !Scored(f, MoveBall(w.ball))
    ensures Tick(f, w, serveRight, serveDown).ball
            == w.ball.(x := w.ball.x + w.ball.dx, y := w.ball.y + w.ball.dy)
  {
  }

  /** A player-paddle hit survives the rest of the tick: the ball is flush with the
      paddle's right edge, reversed and 5% faster, deflected by its impact offset. */
  lemma TickPlayerHit(f: Field, w: World, serveRight: bool, serveDown: bool)
    requires f.Valid() && f.KeepsPaddlesApart() && Shaped(f, w)
    requires HitsPlayer(w.player, BounceWalls(f, MoveBall(w.ball)))
    ensures var walled := BounceWalls(f, MoveBall(w.ball));
            var r := Tick(f, w, serveRight, serveDown).ball;
            && r.x == w.player.x + w.player.width
            && r.y == walled.y
            && r.dx == -SpeedUp * w.ball.dx
            && r.dy == DeflectGain * ImpactOffset(walled, w.player)
  {
  }

  /** An AI-paddle hit survives the rest of the tick: the ball is flush with the
      paddle's left edge, reversed and 5% faster, deflected by its impact offset. */
  lemma TickAiHit(f: Field, w: World, serveRight: bool, serveDown: bool)
    requires f.Valid() && f.KeepsPaddlesApart() && Shaped(f, w)
    requires HitsAi(w.ai, BounceWalls(f, MoveBall(w.ball)))
    ensures var walled := BounceWalls(f, MoveBall(w.ball));
            var r := Tick(f, w, serveRight, serveDown).ball;
            && r.x == w.ai.x - w.ball.size
            && r.y == walled.y
            && r.dx == -SpeedUp * w.ball.dx
            && r.dy == DeflectGain * ImpactOffset(walled, w.ai)
  {
  }

  /** A ball that left the field during the tick ends it centred, with serve speeds. */
  lemma TickScores(f: Field, w: World, serveRight: bool, serveDown: bool)
    requires f.Valid() && Shaped(f, w)
    requires Scored(f, Deflected(f, w))
    ensures var r := Tick(f, w, serveRight, serveDown).ball;
            && r.x + r.size / 2.0 == f.width / 2.0 && r.y + r.size / 2.0 == f.height / 2.0
            && Abs(r.dx) == ServeSpeedX && Abs(r.dy) == ServeSpeedY
  {
  }

  /** The AI paddle, if it started inside the field, moves toward the target computed
      from the ball it ends the tick with, by at most 3.2, and never past the target. */
  lemma TickAiChase(f: Field, w: World, serveRight: bool, serveDown: bool)
    requires f.Valid() && Shaped(f, w) && PaddleInside(f, w.ai)
    ensures var r := Tick(f, w, serveRight, serveDown);
            var target := AiTarget(w.ai, r.ball);
            && (w.ai.y < target ==> w.ai.y <= r.ai.y <= target && 0.0 < r.ai.dy <= AiMaxSpeed)
            && (w.ai.y >= target ==> target <= r.ai.y <= w.ai.y && -AiMaxSpeed <= r.ai.dy <= 0.0)
            && Abs(r.ai.y - w.ai.y) <= AiMaxSpeed * AiDamping
            && r.ai.dy == Max(-AiMaxSpeed, Min(AiMaxSpeed, target - w.ai.y))
  {
  }

  /** From the centre, serving right and down, a tick with nothing in the way
      advances the ball by (5, 3) when the canvas is at least 88 wide. */
  lemma ServeAdvances(f: Field, serveRight: bool, serveDown: bool)
    requires f.Valid() && f.width >= 88.0
    ensures var w := Initial(f, true, true);
            var r := Tick(f, w, serveRight, serveDown).ball;
            r.x == w.ball.x + 5.0 && r.y == w.ball.y + 3.0
  {
  }

  /** On a canvas between 66 and 78 wide, one tick can deflect the ball off both paddles:
      on a 70-wide canvas a ball at (30, 20) moving left by 2 bounces off the player,
      lands inside the AI paddle's hit test and ends at its left edge, moving left. */
  lemma NarrowCanvasDoubleDeflection()
    ensures var f := Field(70.0, 100.0);
            var w := World(PaddleState(PlayerX, 10.0, PaddleWidth, PaddleHeight, 0.0),
                           PaddleState(f.AiX(), 10.0, PaddleWidth, PaddleHeight, 0.0),
                           BallState(30.0, 20.0, BallSize, -2.0, 0.0));
            var walled := BounceWalls(f, MoveBall(w.ball));
            var r := Tick(f, w, true, true).ball;
            && f.Valid() && !f.KeepsPaddlesApart() && Shaped(f, w)
            && HitsPlayer(w.player, walled)
            && HitsAi(w.ai, PlayerCollision(w.player, walled))
            && r.x == f.AiX() - BallSize && r.dx == -2.205
  {
  }

  /** On a canvas between 54 and 78 wide, a ball can be inside both hit tests at once.
      The player's test runs first, so on a 60-wide canvas a resting ball at (22, 20)
      ends the tick flush with the player's paddle, not at the AI paddle's left edge. */
  lemma NarrowCanvasPlayerFirst()
    ensures var f := Field(60.0, 100.0);
            var w := World(PaddleState(PlayerX, 10.0, PaddleWidth, PaddleHeight, 0.0),
                           PaddleState(f.AiX(), 10.0, PaddleWidth, PaddleHeight, 0.0),
                           BallState(22.0, 20.0, BallSize, 0.0, 0.0));
            var walled := BounceWalls(f, MoveBall(w.ball));
            var r := Tick(f, w, true, true).ball;
            && f.Valid() && !f.KeepsPaddlesApart() && Shaped(f, w)
            && HitsPlayer(w.player, walled) && HitsAi(w.ai, walled)
            && r.x == PlayerX + PaddleWidth && r.x != f.AiX() - BallSize
  {
  }

  /** On a canvas narrower than 46, a ball pushed out of the player's paddle has its
      right edge past the canvas, so the tick serves it again (see TickScores): on a
      40-wide canvas a resting ball at (25, 20) is deflected, misses the AI paddle and scores. */
  lemma NarrowCanvasDeflectedScores()
    ensures var f := Field(40.0, 100.0);
            var w := World(PaddleState(PlayerX, 10.0, PaddleWidth, PaddleHeight, 0.0),
                           PaddleState(f.AiX(), 10.0, PaddleWidth, PaddleHeight, 0.0),
                           BallState(25.0, 20.0, BallSize, 0.0, 0.0));
            && f.Valid() && Shaped(f, w)
            && HitsPlayer(w.player, BounceWalls(f, MoveBall(w.ball)))
            && Deflected(f, w) == PlayerCollision(w.player, BounceWalls(f, MoveBall(w.ball)))
            && Scored(f, Deflected(f, w))
  {
  }
}
